=== FILE: README.md ===
# Inventory table view — a Dafny model

The inventory page shows a game-item catalogue as a table. The user can search it
and sort it by clicking column headers. This project models the page's view logic
as pure functions over immutable values, and proves properties of them:

- **Search filter.** An item stays in the table when the lower-cased search text
  occurs in its lower-cased name or in its bonus text. The bonus text is
  `bonus_type +bonus_value`, or empty when the item has no bonus type.
- **Sort-header state machine.** A click on a column header moves the sort state
  (`sortConfig`) from ascending to descending to unsorted.
- **Row comparator.** The bonus column has its own rule: items are ordered by bonus
  type, and items with the same type by value, largest first. The other columns
  compare numerically when both cells are numeric and as strings otherwise.
- **Displayed rows.** These are the filtered rows. When a column is sorted they
  are sorted by that column's comparator.
- **Per-row strings.** These are the CSS rarity class of a row, the cleaned-up
  sub-type label, and the ▲/▼ marker on the sorted header.

The React closures become parameters. `search` is a string, `sortConfig` is a
`SortConfig<Column>` and an item is an `Item` record. A missing JSON field (`undefined`)
is `None`.

Modules, leaf first:

| file | module | contents |
|---|---|---|
| options.dfy | Options | `Option` |
| text.dfy | Text | `toLowerCase`, `includes`, string `<`, the `\s` whitespace class, `^\s+` trimming |
| numbers.dfy | Numbers | `Number(..)` on integer text, decimal text of an integer |
| items.dfy | Items | `Item`, bonus text, rarity class, sub-type label |
| search.dfy | Search | the filter predicate and `filter` |
| sortheader.dfy | SortHeader | sort state, header clicks, header marker |
| roworder.dfy | RowOrder | the sort comparator (bonus rule and generic rule) |
| table.dfy | Table | `sort` as a stable insertion sort, the displayed rows |

The comparator has a quirk when the bonus column is sorted and exactly one of two
items has no bonus type. In JavaScript, any `<` comparison with `undefined` is false,
so both `compare(a, b)` and `compare(b, a)` return `dir`. The model keeps this
behaviour (`RowOrder.BonusCompareMissingType`). Orderedness of the sorted rows is
therefore proved only when the comparator is antisymmetric on the rows
(`Table.SortRowsOrdered`). For the bonus column that means every matching row has a
bonus type, or none has (`Table.DisplayedOrdered`). The model also keeps the
largest-value-first order inside one bonus type under "ascending", as written.
Inside one bonus type, a missing value makes the subtraction `NaN`, which the sort
reads as 0. So an item without a value compares 0 with items of values 1 and 2,
although those two compare unequal (`RowOrder.MissingValueIncomparable`). The bonus
column is therefore not a consistent order even when every row has a bonus type.

The generic rule for the name and sub-type columns is antisymmetric, but it is not
a consistent order either. A missing cell compares 0 with every cell, including two
cells that differ (`RowOrder.MissingCellIncomparable`). Numeric cells compare as
numbers, but a numeric cell and a non-numeric one compare as strings, so `2`, `10`
and `1a` form a cycle (`RowOrder.GenericRuleCycle`). What `Table.DisplayedOrdered`
proves is therefore a property of the model's insertion sort: every row compares at
most 0 with the row below it. It does not say that the rows are sorted in a global
order.

## Model

| member | source | states |
|---|---|---|
| Text.Lower | src/App.jsx:37-38 | `toLowerCase` keeps the length and lower-cases each character in place; with Text.LowerIsLowerCase, the result has no upper-case letter and lower-casing it again changes nothing |
| Text.LowerIsLowerCase | src/App.jsx:37-38 | a lower-cased string has no upper-case letter, and lower-casing is idempotent |
| Text.Contains | src/App.jsx:37-38 | a string contains only needles no longer than itself, and always contains the empty string (full characterization: Text.ContainsIffOccurs) |
| Text.ContainsIffOccurs | src/App.jsx:37-38 | `includes` holds exactly when the needle occurs at some position of the haystack (both directions) |
| Text.StrLessTrichotomy | src/App.jsx:49 | string `<` is irreflexive and asymmetric, and relates any two distinct strings one way or the other |
| Text.StrLessTransitive | src/App.jsx:49 | string `<` is transitive, so with Text.StrLessTrichotomy it is a strict total order |
| Text.TrimStart | src/App.jsx:171 | `replace(/^\s+/, '')` returns a suffix of its input; everything removed is whitespace; the result does not begin with whitespace |
| Text.StripPrefix | src/App.jsx:171 | `replace(/^Equipment/, '')` removes exactly one leading occurrence when there is one (the input is the prefix followed by the result) and returns the input unchanged otherwise |
| Numbers.ToNumber | src/App.jsx:53-55 | `Number(..)` reads an empty or all-whitespace string as 0, a digit string as its decimal value, a digit string after `-` as the negated value and after `+` as the value; a string holding any character other than whitespace, a digit or a sign reads as `NaN` (`None`); and a string is a number exactly when its trimmed text is empty, a digit string, or a sign followed by a digit string, so `-`, `1-2`, `--5` and `1 2` read as `NaN` |
| Numbers.ToNumberIgnoresPadding | src/App.jsx:53-55 | whitespace before and after a string that neither starts nor ends with whitespace does not change what `Number(..)` reads |
| Numbers.IntToString | src/App.jsx:35 | the text of an integer is its decimal digits, preceded by `-` exactly when the integer is negative; there is no `+` and no leading zero except in `0` itself (round trip: Numbers.IntToStringRoundTrip; uniqueness: Numbers.DigitsCanonical) |
| Numbers.DigitsCanonical | src/App.jsx:35 | a digit string without a leading zero (or `0` itself) is exactly the decimal text of its value, so the template-literal text of a number is unique |
| Numbers.IntToStringRoundTrip | src/App.jsx:35 | `Number` applied to the template-literal text of an integer gives back that integer |
| Items.BonusValueText | src/App.jsx:35 | the text of a present bonus value is its integer text (Numbers.IntToString) and reads back through `Number(..)` as that value, and a missing value gives `undefined`, which reads as `NaN` |
| Items.BonusString | src/App.jsx:35 | the bonus text is non-empty exactly when the bonus type is truthy, and is then `type +value` |
| Items.BonusStringValueRoundTrip | src/App.jsx:35 | for an item with a bonus type, the bonus string starts with `type +` and the text after it reads back as the item's bonus value, or as `NaN` (`+undefined`) when the value is missing |
| Items.RarityClass | src/App.jsx:88-91 | the class starts with `rarity-`, followed by `common` for a missing or empty rarity and by the lower-cased rarity otherwise |
| Items.RarityClassCaseInsensitive | src/App.jsx:88-91 | a rarity class has no upper-case letter; rarities equal up to case give the same class; `Common` gives the class of a missing rarity |
| Items.SubTypeLabel | src/App.jsx:170-171 | the label is a suffix of the sub-type and never begins with whitespace; after a leading `Equipment` it is the rest with leading whitespace trimmed; any other sub-type only loses its leading whitespace, so one starting with neither is unchanged |
| Items.SubTypeLabelStripsOnce | src/App.jsx:171 | only one leading `Equipment` is removed: `EquipmentEquipment` gives `Equipment`, so the label is not idempotent |
| Items.SubTypeLabelOfPrefixed | src/App.jsx:171 | `Equipment`, then any whitespace, then a word gives the word; a cleaned label not starting with `Equipment` is a fixed point |
| Search.Matches | src/App.jsx:35-39 | a matching item has a non-empty name or a bonus type, and the search text is no longer than the name or the bonus text (full characterization: Search.MatchesIffOccurs) |
| Search.MatchesIffOccurs | src/App.jsx:35-39 | an item matches exactly when the lower-cased search text occurs at some position of its lower-cased non-empty name, or of its lower-cased bonus text when it has a bonus type |
| Search.Filter | src/App.jsx:33-40 | the kept rows are an order-preserving subsequence of the inventory, and every item occurs in it as often as in the inventory if it matches and not at all otherwise |
| Search.FilterMembers | src/App.jsx:33-40 | an item is among the kept rows exactly when it is in the inventory and matches the search |
| Search.EmptySearchMatches | src/App.jsx:35-39 | with an empty search an item is kept exactly when it has a non-empty name or a bonus type |
| Search.NarrowingSearch | src/App.jsx:37-38 | when the new search text contains the old one, every item matching the new one matches the old one |
| Search.FilterRefines | src/App.jsx:33-40 | filtering the rows of a search by a longer search that contains it gives the rows of the longer search |
| Search.FilterIdempotent | src/App.jsx:33-40 | filtering twice with the same search gives the same rows as filtering once |
| Search.FilterCaseInsensitive | src/App.jsx:37-38 | two searches equal up to case keep the same rows |
| SortHeader.Click | src/App.jsx:65-78 | after a click the sorted column is the clicked one or none; it is none exactly when the clicked column was descending; it is descending exactly when the clicked column was ascending |
| SortHeader.ClickOtherColumn | src/App.jsx:67-76 | a click on a column that is not the sorted one gives that column, ascending |
| SortHeader.ClickCycle | src/App.jsx:67-76 | from unsorted, n clicks on one column give unsorted, ascending or descending as n mod 3 is 0, 1 or 2 |
| SortHeader.ClickAllReachable | src/App.jsx:65-77 | after any sequence of clicks from a well-formed state, an unsorted state shows ascending and a sorted column is the last one clicked |
| SortHeader.Indicator | src/App.jsx:127 | a header shows a marker exactly when it is the sorted column, the up marker `▲` exactly when that column is ascending, and the down marker `▼` exactly when it is descending |
| RowOrder.OptLessUndefined | src/App.jsx:49 | `a.bonus_type < b.bonus_type` (RowOrder.OptLess) is false in both directions when either side is `undefined`; between present strings it holds in at most one direction, and in exactly one when they differ |
| RowOrder.BonusCompare | src/App.jsx:47-49 | different bonus types give 1 or -1; equal bonus types give 0 when the values are equal or either value is missing (a `NaN` difference); the order of present values and of different types is in RowOrder.BonusOrderByValue and RowOrder.BonusOrderByType |
| RowOrder.TextCompare | src/App.jsx:51-59 | the generic rule gives -1, 0 or 1, and 0 exactly when the cells are equal strings or read as equal numbers (full characterization: RowOrder.TextCompareMeaning) |
| RowOrder.CellCompare | src/App.jsx:51-59 | the generic rule gives -1, 0 or 1; it gives 0 when either cell is missing or both are equal; two present cells compare by the ascending rule turned to the direction (its sign in RowOrder.TextCompareMeaning) |
| RowOrder.Compare | src/App.jsx:46-61 | an item compares 0 with itself; on the name and sub-type columns, two present cells compare by the generic rule turned to the direction, and the result is -1, 0 or 1; on the bonus column, different bonus types never compare 0 |
| RowOrder.CompareGenericMeaning | src/App.jsx:51-59 | on the name and sub-type columns with both cells present, a row sorts before another under ascending exactly when both cells are numeric and its number is smaller, or not both are and its string is smaller; descending reverses this |
| RowOrder.TextCompareMeaning | src/App.jsx:51-59 | the generic rule is negative or zero exactly as the two numbers are less or equal when both cells are numeric, and as the two strings are otherwise |
| RowOrder.TextCompareAntisymmetric | src/App.jsx:53-59 | a present cell compares 0 with itself, and swapping two present cells negates the ascending generic rule |
| RowOrder.CellCompareAntisymmetric | src/App.jsx:51-59 | equal cells compare 0 and swapping two cells negates the generic rule, missing cells included |
| RowOrder.CompareFlipsWithDirection | src/App.jsx:45-61 | on every column, the descending comparison is the negated ascending one |
| RowOrder.BonusOrderByType | src/App.jsx:49 | different bonus types are ordered by string order of the type under ascending, reversed under descending |
| RowOrder.BonusOrderByValue | src/App.jsx:48 | equal bonus types are ordered largest value first under ascending and smallest first under descending |
| RowOrder.BonusCompareAntisymmetric | src/App.jsx:47-49 | when both items have a bonus type or neither has, swapping them negates the bonus comparison |
| RowOrder.BonusCompareMissingType | src/App.jsx:49 | when exactly one item lacks a bonus type, both orders of comparison return `dir`, so the bonus comparison is not antisymmetric there |
| RowOrder.CompareAntisymmetric | src/App.jsx:46-61 | the comparator is antisymmetric on any two items, except on the bonus column when exactly one of them has a bonus type |
| RowOrder.TextCompareNonNumeric | src/App.jsx:53-58 | when either cell holds a character `Number(..)` rejects, the generic rule falls back to string order |
| RowOrder.GenericRuleCycle | src/App.jsx:51-59 | names `2`, `10` and `1a` compare `2` before `10`, `10` before `1a` and `1a` before `2` under ascending, so the generic rule is not transitive |
| RowOrder.MissingValueIncomparable | src/App.jsx:48 | within one bonus type, an item without a value compares 0 with items of values 1 and 2, which compare unequal to each other, so comparing 0 is not transitive on the bonus column |
| RowOrder.MissingCellIncomparable | src/App.jsx:51-59 | a missing name compares 0 with the names `a` and `b`, although `a` compares before `b`, so comparing 0 is not transitive |
| Table.Insert | src/App.jsx:46 | inserting a row gives a permutation of the rows plus that row, headed by the new row or the old head |
| Table.SortRows | src/App.jsx:43-46 | sorting returns a permutation of its input |
| Table.SortRowsOrdered | src/App.jsx:46-61 | when the comparator is antisymmetric on the rows, each sorted row compares at most 0 with the next |
| Table.Displayed | src/App.jsx:33-46 | without a sort key the displayed rows are the filtered rows in order; with one they are a permutation of them; an item is displayed as often as it occurs in the inventory when it matches, and never otherwise |
| Table.DisplayedMembers | src/App.jsx:33-46 | an item is displayed exactly when it is in the inventory and matches the search, whatever the sort state |
| Table.DisplayedOrdered | src/App.jsx:43-61 | sorting by name or sub-type always gives rows of which each compares at most 0 with the next; sorting by bonus does when all matching rows have a bonus type, or none has |

## Left out

- Loading the inventory with `fetch`/`useEffect` and the loading and error states (src/App.jsx:9-21) are network I/O.
- The JSX rendering, `window.open` navigation and keyboard handlers (src/App.jsx:105-182) are UI and browser calls. The exception is the header marker at src/App.jsx:127, modelled as `SortHeader.Indicator`. This includes the ` xN` quantity suffix of the name cell and the raw JSON dump for a non-array inventory.
- `highlightText` (src/App.jsx:94-103) is left out. It relies on JavaScript `RegExp` semantics, including the state that a global regular expression's `test` keeps between calls.
- scripts/clean-docs.js is left out. It deletes files and has no logic beyond keeping `inventory.json`.
- Text.Lower: lower-cases the ASCII letters only. JavaScript `toLowerCase` also maps other Unicode letters.
- Text.StrLessTrichotomy: compares strings by Unicode code point. JavaScript compares UTF-16 code units, which differs only for characters outside the Basic Multilingual Plane.
- Numbers.ToNumber: reads integer literals only (optional sign, decimal digits, surrounding whitespace). JavaScript `Number` also reads fractions, exponents, hexadecimal and `Infinity`; the model treats those cells as non-numeric and compares them as strings.
- Numbers.IntToString: bonus values are unbounded integers, and the text is always plain decimal digits. A JavaScript number prints in exponent form from 1e21 on (`${1e21}` is `1e+21`), so the contract matches JavaScript only below that bound.
- Bonus values are integers. A missing field is `None`; JSON `null` is not told apart from a missing field, although `Number(null)` is 0 where `Number(undefined)` is `NaN`.
- Table.SortRows: `Array.prototype.sort` is modelled as a stable insertion sort. When the comparator is consistent, every stable sort gives the same order. When it is not consistent, ECMAScript leaves the order to the engine, so the model's order is only one possible outcome. The contract promises a permutation and, under antisymmetry, ordered adjacent rows.
- Table.DisplayedOrdered: states only that each displayed row compares at most 0 with the next one. The name and sub-type comparator is not a consistent order (`RowOrder.GenericRuleCycle`, `RowOrder.MissingCellIncomparable`). The bonus column is not one either when a bonus value is missing (`RowOrder.MissingValueIncomparable`). ECMAScript therefore leaves the sorted order to the engine on those columns, and on the bonus column whenever a matching row lacks a bonus value; the lemma is about the model's insertion sort.
- The subtraction in the bonus rule is on integers. Floating-point rounding of `Number(..)` is not modelled.

=== FILE: items.dfy ===
/** An inventory item as the table reads it, and the per-item strings the
    table derives from it: the searchable bonus text, the row's rarity CSS
    class and the cleaned-up sub-type label. */
module Items {
  import opened Options
  import opened Text
  import opened Numbers

  /** The fields of an inventory record that the table logic looks at. */
  datatype Item = Item(
    name: Option<string>,
    bonusType: Option<string>,
    bonusValue: Option<int>,
    rarity: Option<string>,
    subType: Option<string>)

  /** JavaScript truthiness of an optional string field: present and
      non-empty. */
  predicate Truthy(o: Option<string>) {
    o.Some? && o.value != ""
  }

  /** The text of `bonus_value` in a template literal; an absent value prints
      as `undefined`. */
  function BonusValueText(v: Option<int>): (r: string)
    ensures ToNumber(r) == v
    ensures v.None? ==> r == "undefined"
    ensures v.Some? ==> r == IntToString(v.value)
  {
    match v
    case None =>
      assert !IsNumberChar("undefined"[0]);
      "undefined"
    case Some(n) =>
      IntToStringRoundTrip(n);
      IntToString(n)
  }

  /** The bonus text shown in, and searched through, the bonus column:
      `type +value` when the item has a bonus type, otherwise empty. */
  function BonusString(item: Item): (r: string)
    ensures r != "" <==> Truthy(item.bonusType)
    ensures Truthy(item.bonusType) ==>
              r == item.bonusType.value + " +" + BonusValueText(item.bonusValue)
  {
    if Truthy(item.bonusType) then
      item.bonusType.value + " +" + BonusValueText(item.bonusValue)
    else
      ""
  }

  /** The text after ` +` in the bonus text reads back as the item's bonus
      value, and as `NaN` when the item has none (`+undefined`). */
  lemma BonusStringValueRoundTrip(item: Item)
    requires Truthy(item.bonusType)
    ensures var s := BonusString(item);
            var k := |item.bonusType.value| + 2;
            k <= |s| && s[..k] == item.bonusType.value + " +" &&
            ToNumber(s[k..]) == item.bonusValue
  {
    var s := BonusString(item);
    var k := |item.bonusType.value| + 2;
    assert s[k..] == BonusValueText(item.bonusValue);
  }

  /* --------------------------------------------------------------- rarity */

  const RarityPrefix := "rarity-"

  /** The CSS class of a row: `rarity-common` when the item has no rarity,
      otherwise `rarity-` followed by the lower-cased rarity. */
  function RarityClass(rarity: Option<string>): (r: string)
    ensures StartsWith(r, RarityPrefix)
    ensures !Truthy(rarity) ==> r[|RarityPrefix|..] == "common"
    ensures Truthy(rarity) ==> r[|RarityPrefix|..] == Lower(rarity.value)
  {
    if !Truthy(rarity) then RarityPrefix + "common"
    else RarityPrefix + Lower(rarity.value)
  }

  /** A rarity class never contains an upper-case letter, and it does not
      depend on the case of the rarity: `Common`, `COMMON` and a missing
      rarity all give `rarity-common`. */
  lemma RarityClassCaseInsensitive(a: Option<string>, b: Option<string>)
    ensures forall i :: 0 <= i < |RarityClass(a)| ==> !IsUpper(RarityClass(a)[i])
    ensures Truthy(a) && Truthy(b) && Lower(a.value) == Lower(b.value) ==>
              RarityClass(a) == RarityClass(b)
    ensures Truthy(a) && Lower(a.value) == "common" ==> RarityClass(a) == RarityClass(None)
  {
    var r := RarityClass(a);
    if Truthy(a) {
      LowerIsLowerCase(a.value);
      assert r == RarityPrefix + Lower(a.value);
      forall i | 0 <= i < |r|
        ensures !IsUpper(r[i])
      {
        if i >= |RarityPrefix| {
          assert r[i] == Lower(a.value)[i - |RarityPrefix|];
        }
      }
    }
  }

  /* ------------------------------------------------------------- sub-type */

  const EquipmentPrefix := "Equipment"

  /** The sub-type label: `s.replace(/^Equipment/, '').replace(/^\s+/, '')`. */
  function SubTypeLabel(s: string): (r: string)
    ensures |r| <= |s| && r == s[|s| - |r|..]
    ensures |r| == 0 || !IsSpace(r[0])
    ensures StartsWith(s, EquipmentPrefix) ==>
              r == TrimStart(s[|EquipmentPrefix|..])
    ensures !StartsWith(s, EquipmentPrefix) ==> r == TrimStart(s)
    ensures !StartsWith(s, EquipmentPrefix) && (|s| == 0 || !IsSpace(s[0])) ==> r == s
  {
    TrimStart(StripPrefix(s, EquipmentPrefix))
  }

  /** Only one leading `Equipment` is removed: the label is not idempotent. */
  lemma SubTypeLabelStripsOnce()
    ensures SubTypeLabel("EquipmentEquipment") == "Equipment"
    ensures SubTypeLabel(SubTypeLabel("EquipmentEquipment")) == ""
  {
    var twice := EquipmentPrefix + EquipmentPrefix;
    assert twice == "EquipmentEquipment";
    assert StartsWith(twice, EquipmentPrefix);
    assert StripPrefix(twice, EquipmentPrefix) == EquipmentPrefix;
    assert !IsSpace(EquipmentPrefix[0]);
    assert TrimStart(EquipmentPrefix) == EquipmentPrefix;
    assert StartsWith(EquipmentPrefix, EquipmentPrefix);
    assert StripPrefix(EquipmentPrefix, EquipmentPrefix) == "";
  }

  /** `Equipment`, then whitespace, then a word gives the word; a label
      already cleaned is left as it is when it does not itself begin with
      `Equipment`. */
  lemma {:induction false} SubTypeLabelOfPrefixed(w: string, rest: string)
    requires forall i :: 0 <= i < |w| ==> IsSpace(w[i])
    requires |rest| == 0 || !IsSpace(rest[0])
    ensures SubTypeLabel(EquipmentPrefix + w + rest) == rest
    ensures !StartsWith(rest, EquipmentPrefix) ==> SubTypeLabel(rest) == rest
  {
    var s := EquipmentPrefix + w + rest;
    assert StartsWith(s, EquipmentPrefix);
    assert s[|EquipmentPrefix|..] == w + rest;
    TrimStartSkipsSpaces(w, rest);
  }

}

=== FILE: numbers.dfy ===
/** The two conversions between strings and numbers that the table uses:
    `Number(s)` (to decide whether a cell is numeric) and the decimal text of
    a number inside a template literal (`${item.bonus_value}`). Numbers are
    integers here; `None` plays the part of `NaN`. */
module Numbers {
  import opened Options
  import opened Text

  predicate IsDigit(c: char) {
    '0' <= c <= '9'
  }

  /** A non-empty run of decimal digits. */
  predicate IsDigits(s: string) {
    |s| > 0 && forall i :: 0 <= i < |s| ==> IsDigit(s[i])
  }

  function DigitValue(c: char): nat
    requires IsDigit(c)
  {
    c as int - '0' as int
  }

  function DigitChar(d: nat): (c: char)
    requires d < 10
    ensures IsDigit(c) && DigitValue(c) == d
  {
    ('0' as int + d) as char
  }

  /** The value of a digit string, most significant digit first. */
  function DigitsValue(s: string): nat
    requires forall i :: 0 <= i < |s| ==> IsDigit(s[i])
    decreases |s|
  {
    if |s| == 0 then 0 else DigitsValue(s[..|s| - 1]) * 10 + DigitValue(s[|s| - 1])
  }

  /** The shortest decimal text of a natural number: no leading zero except
      for zero itself. */
  function NatToDigits(n: nat): (r: string)
    ensures IsDigits(r)
    ensures r[0] == '0' ==> n == 0
    decreases n
  {
    if n < 10 then [DigitChar(n)] else NatToDigits(n / 10) + [DigitChar(n % 10)]
  }

  /** The text of an integer in a template literal: a minus sign for negative
      numbers, then the digits. */
  function IntToString(n: int): (r: string)
    ensures |r| > 0 && !IsSpace(r[0]) && !IsSpace(r[|r| - 1])
    ensures n < 0 <==> r[0] == '-'
    ensures n >= 0 ==> IsDigits(r) && (r[0] == '0' ==> r == "0")
    ensures n < 0 ==> IsDigits(r[1..]) && r[1] != '0'
  {
    if n < 0 then "-" + NatToDigits(-n) else NatToDigits(n)
  }

  /** A character that may appear in an integer literal, surrounding
      whitespace included. */
  predicate IsNumberChar(c: char) {
    IsSpace(c) || IsDigit(c) || c == '-' || c == '+'
  }

  /** `Number(s)` restricted to integer literals: surrounding whitespace is
      ignored, the empty (or all-blank) string is 0, an optional sign may
      precede the digits, and anything else is `NaN`. */
  function ToNumber(s: string): (r: Option<int>)
    ensures (forall i :: 0 <= i < |s| ==> IsSpace(s[i])) ==> r == Some(0)
    ensures IsDigits(s) ==> r == Some(DigitsValue(s))
    ensures |s| > 1 && s[0] == '-' && IsDigits(s[1..]) ==> r == Some(-(DigitsValue(s[1..]) as int))
    ensures |s| > 1 && s[0] == '+' && IsDigits(s[1..]) ==> r == Some(DigitsValue(s[1..]))
    ensures (exists i :: 0 <= i < |s| && !IsNumberChar(s[i])) ==> r.None?
    ensures r.Some? <==>
              var t := Trim(s);
              t == "" || IsDigits(t) || (|t| > 1 && (t[0] == '-' || t[0] == '+') && IsDigits(t[1..]))
  {
    ReadTrimmed(s);
    ReadLiteral(Trim(s))
  }

  /** The value of an integer literal without surrounding whitespace; the
      empty literal is 0. */
  function ReadLiteral(t: string): Option<int> {
    if |t| == 0 then Some(0)
    else if t[0] == '-' && IsDigits(t[1..]) then Some(-(DigitsValue(t[1..]) as int))
    else if t[0] == '+' && IsDigits(t[1..]) then Some(DigitsValue(t[1..]))
    else if IsDigits(t) then Some(DigitsValue(t))
    else None
  }

  /** A literal holding a character that is neither a digit nor a sign is
      not a number. */
  lemma ReadLiteralRejects(t: string, j: int)
    requires 0 <= j < |t| && !IsDigit(t[j]) && t[j] != '-' && t[j] != '+'
    ensures ReadLiteral(t) == None
  {
    if j > 0 {
      assert t[1..][j - 1] == t[j];
    }
  }

  /** What `ReadLiteral` gives on a trimmed string, case by case. */
  lemma ReadTrimmed(s: string)
    ensures (forall i :: 0 <= i < |s| ==> IsSpace(s[i])) ==> ReadLiteral(Trim(s)) == Some(0)
    ensures IsDigits(s) ==> ReadLiteral(Trim(s)) == Some(DigitsValue(s))
    ensures |s| > 1 && s[0] == '-' && IsDigits(s[1..]) ==>
              ReadLiteral(Trim(s)) == Some(-(DigitsValue(s[1..]) as int))
    ensures |s| > 1 && s[0] == '+' && IsDigits(s[1..]) ==>
              ReadLiteral(Trim(s)) == Some(DigitsValue(s[1..]))
    ensures (exists i :: 0 <= i < |s| && !IsNumberChar(s[i])) ==> ReadLiteral(Trim(s)).None?
  {
    if forall i :: 0 <= i < |s| ==> IsSpace(s[i]) {
      TrimAllSpaces(s);
    }
    if IsDigits(s) {
      ReadDigits(s);
    }
    if |s| > 1 && (s[0] == '-' || s[0] == '+') && IsDigits(s[1..]) {
      ReadSigned(s);
    }
    if exists i :: 0 <= i < |s| && !IsNumberChar(s[i]) {
      var i :| 0 <= i < |s| && !IsNumberChar(s[i]);
      ReadRejects(s, i);
    }
  }

  lemma ReadDigits(s: string)
    requires IsDigits(s)
    ensures ReadLiteral(Trim(s)) == Some(DigitsValue(s))
  {
    TrimUntrimmed(s);
  }

  lemma ReadSigned(s: string)
    requires |s| > 1 && (s[0] == '-' || s[0] == '+') && IsDigits(s[1..])
    ensures s[0] == '-' ==> ReadLiteral(Trim(s)) == Some(-(DigitsValue(s[1..]) as int))
    ensures s[0] == '+' ==> ReadLiteral(Trim(s)) == Some(DigitsValue(s[1..]))
  {
    assert s[|s| - 1] == s[1..][|s| - 2];
    TrimUntrimmed(s);
  }

  lemma ReadRejects(s: string, i: int)
    requires 0 <= i < |s| && !IsNumberChar(s[i])
    ensures ReadLiteral(Trim(s)).None?
  {
    TrimKeeps(s, i);
    ReadLiteralRejects(Trim(s), i - (|s| - |TrimStart(s)|));
  }

  /** Whitespace around a literal does not change what `Number` reads. */
  lemma ToNumberIgnoresPadding(before: string, s: string, after: string)
    requires forall i :: 0 <= i < |before| ==> IsSpace(before[i])
    requires forall i :: 0 <= i < |after| ==> IsSpace(after[i])
    requires |s| > 0 && !IsSpace(s[0]) && !IsSpace(s[|s| - 1])
    ensures ToNumber(before + s + after) == ToNumber(s)
  {
    assert before + s + after == before + (s + after);
    TrimStartSkipsSpaces(before, s + after);
    TrimEndSkipsSpaces(s, after);
    TrimUntrimmed(s);
    assert Trim(before + s + after) == Trim(s);
  }

  /** Reading back the digits of a natural number gives the number. */
  lemma {:induction false} DigitsRoundTrip(n: nat)
    ensures DigitsValue(NatToDigits(n)) == n
    decreases n
  {
    if n >= 10 {
      DigitsRoundTrip(n / 10);
      var s := NatToDigits(n);
      assert s[..|s| - 1] == NatToDigits(n / 10);
    }
  }

  /** A digit string without a leading zero has a positive value. */
  lemma {:induction false} LeadingDigitPositive(s: string)
    requires IsDigits(s) && s[0] != '0'
    ensures DigitsValue(s) >= 1
    decreases |s|
  {
    if |s| > 1 {
      var p := s[..|s| - 1];
      assert p[0] == s[0];
      LeadingDigitPositive(p);
    }
  }

  /** The decimal text of a natural number is the only digit string of that
      value without a leading zero (other than `0` itself). */
  lemma {:induction false} DigitsCanonical(s: string)
    requires IsDigits(s) && (s[0] == '0' ==> s == "0")
    ensures NatToDigits(DigitsValue(s)) == s
    decreases |s|
  {
    if |s| > 1 {
      var p := s[..|s| - 1];
      assert p[0] == s[0];
      DigitsCanonical(p);
      LeadingDigitPositive(p);
      var n := DigitsValue(s);
      assert n / 10 == DigitsValue(p) && n % 10 == DigitValue(s[|s| - 1]);
      assert s == p + [s[|s| - 1]];
    }
  }

  /** `Number` applied to the text of an integer gives back that integer. */
  lemma IntToStringRoundTrip(n: int)
    ensures ToNumber(IntToString(n)) == Some(n)
  {
    var s := IntToString(n);
    assert TrimStart(s) == s;
    assert TrimEnd(s) == s;
    if n < 0 {
      assert s[1..] == NatToDigits(-n);
      DigitsRoundTrip(-n);
    } else {
      DigitsRoundTrip(n);
    }
  }

}

=== FILE: options.dfy ===
/** An optional value. `None` stands for a JSON field that is absent from an
    item record (JavaScript `undefined`). */
module Options {

  datatype Option<T> = None | Some(value: T)

}

=== FILE: roworder.dfy ===
/** The comparator handed to `Array.prototype.sort` when a column is
    sorted: a special rule for the bonus column, and a generic rule (numeric
    when both cells are numeric, string order otherwise) for the others. */
module RowOrder {
  import opened Options
  import opened Text
  import opened Numbers
  import opened Items
  import opened SortHeader

  /** The columns of the table, in display order. */
  datatype Column = Name | Bonus | SubType

  /** `v * dir`, where `dir` is 1 for ascending and -1 for descending: an
      ascending comparison result turned to direction `d`. */
  function Directed(v: int, d: Direction): int {
    if d == Asc then v else -v
  }

  /** `a < b` where either side may be `undefined`: a comparison with
      `undefined` is false. */
  predicate OptLess(a: Option<string>, b: Option<string>) {
    a.Some? && b.Some? && StrLess(a.value, b.value)
  }

  /** A comparison with `undefined` is false in both directions, and between
      two present strings at most one direction holds. */
  lemma OptLessUndefined(a: Option<string>, b: Option<string>)
    ensures a.None? || b.None? ==> !OptLess(a, b) && !OptLess(b, a)
    ensures OptLess(a, b) ==> !OptLess(b, a) && a != b
    ensures a.Some? && b.Some? && a != b ==> OptLess(a, b) || OptLess(b, a)
  {
    if a.Some? && b.Some? {
      StrLessTrichotomy(a.value, b.value);
    }
  }

  /** The bonus-column rule. Equal bonus types are ordered by
      `(b.bonus_value - a.bonus_value) * dir`, which is 0 (a `NaN` result)
      when either value is missing; different types by `a.bonus_type <
      b.bonus_type ? -dir : dir`. */
  function BonusCompare(a: Item, b: Item, d: Direction): (r: int)
    ensures a.bonusType != b.bonusType ==> r == 1 || r == -1
    ensures a.bonusType == b.bonusType && a.bonusValue == b.bonusValue ==> r == 0
    ensures a.bonusType == b.bonusType && (a.bonusValue.None? || b.bonusValue.None?) ==> r == 0
  {
    if a.bonusType == b.bonusType then
      (if a.bonusValue.Some? && b.bonusValue.Some?
       then Directed(b.bonusValue.value - a.bonusValue.value, d)
       else 0)
    else if OptLess(a.bonusType, b.bonusType) then Directed(-1, d)
    else Directed(1, d)
  }

  /** The ascending generic rule on two present cells: compare as numbers
      when `Number(..)` reads both, otherwise with the string `<` and `>`. */
  function TextCompare(x: string, y: string): (r: int)
    ensures -1 <= r <= 1
    ensures r == 0 <==>
              x == y ||
              (ToNumber(x).Some? && ToNumber(y).Some? && ToNumber(x).value == ToNumber(y).value)
  {
    StrLessTrichotomy(x, y);
    var nx := ToNumber(x);
    var ny := ToNumber(y);
    if nx.Some? && ny.Some? then
      (if nx.value < ny.value then -1 else if nx.value > ny.value then 1 else 0)
    else
      (if StrLess(x, y) then -1 else if StrLess(y, x) then 1 else 0)
  }

  /** The generic rule: a missing cell compares neither less nor greater
      than anything. */
  function CellCompare(a: Option<string>, b: Option<string>, d: Direction): (r: int)
    ensures -1 <= r <= 1
    ensures a.None? || b.None? || a == b ==> r == 0
    ensures a.Some? && b.Some? ==> r == Directed(TextCompare(a.value, b.value), d)
  {
    if a.None? || b.None? then 0 else Directed(TextCompare(a.value, b.value), d)
  }

  /** The cell the generic rule reads; the bonus column has its own rule. */
  function Cell(item: Item, column: Column): Option<string>
    requires column != Bonus
  {
    if column == Name then item.name else item.subType
  }

  /** The comparator for a sorted column. */
  function Compare(column: Column, d: Direction, a: Item, b: Item): (r: int)
    ensures a == b ==> r == 0
    ensures column != Bonus ==> -1 <= r <= 1
    ensures column == Bonus && a.bonusType != b.bonusType ==> r != 0
    ensures column != Bonus && Cell(a, column).Some? && Cell(b, column).Some? ==>
              r == Directed(TextCompare(Cell(a, column).value, Cell(b, column).value), d)
  {
    if column == Bonus then BonusCompare(a, b, d)
    else CellCompare(Cell(a, column), Cell(b, column), d)
  }

  /* ------------------------------------------------- the generic rule */

  /** The generic rule under the ascending direction: negative, zero or
      positive exactly as the cells' numbers, or else their strings, are
      ordered. */
  lemma TextCompareMeaning(x: string, y: string)
    ensures var r := TextCompare(x, y);
            var nx := ToNumber(x);
            var ny := ToNumber(y);
            (nx.Some? && ny.Some? ==>
               (r < 0 <==> nx.value < ny.value) && (r == 0 <==> nx.value == ny.value)) &&
            (!(nx.Some? && ny.Some?) ==>
               (r < 0 <==> StrLess(x, y)) && (r == 0 <==> x == y))
  {
    StrLessTrichotomy(x, y);
  }

  /** A string compares 0 with itself, and swapping two strings negates the
      ascending generic rule. */
  lemma TextCompareAntisymmetric(x: string, y: string)
    ensures TextCompare(x, x) == 0
    ensures TextCompare(x, y) == -TextCompare(y, x)
  {
    StrLessTrichotomy(x, y);
    var nx, ny := ToNumber(x), ToNumber(y);
    if nx.Some? && ny.Some? {
      assert TextCompare(x, y) == (if nx.value < ny.value then -1 else if nx.value > ny.value then 1 else 0);
    } else {
      assert TextCompare(x, y) == (if StrLess(x, y) then -1 else if StrLess(y, x) then 1 else 0);
    }
  }

  /** Equal cells compare 0, and swapping two cells negates the result. */
  lemma CellCompareAntisymmetric(a: Option<string>, b: Option<string>, d: Direction)
    ensures CellCompare(a, a, d) == 0
    ensures CellCompare(a, b, d) == -CellCompare(b, a, d)
  {
    if a.Some? && b.Some? {
      var t := TextCompare(a.value, b.value);
      TextCompareAntisymmetric(a.value, b.value);
      assert CellCompare(a, b, d) == Directed(t, d);
      assert CellCompare(b, a, d) == Directed(-t, d);
    }
  }

  /** Switching direction negates every comparison, on every column. */
  lemma CompareFlipsWithDirection(column: Column, a: Item, b: Item)
    ensures Compare(column, Desc, a, b) == -Compare(column, Asc, a, b)
  {
  }

  /* --------------------------------------------------- the bonus rule */

  /** Different bonus types are in ascending type order under `Asc`, and in
      the reverse order under `Desc`. */
  lemma BonusOrderByType(a: Item, b: Item)
    requires a.bonusType.Some? && b.bonusType.Some? && a.bonusType != b.bonusType
    ensures BonusCompare(a, b, Asc) < 0 <==> StrLess(a.bonusType.value, b.bonusType.value)
    ensures BonusCompare(a, b, Asc) > 0 <==> StrLess(b.bonusType.value, a.bonusType.value)
    ensures BonusCompare(a, b, Desc) == -BonusCompare(a, b, Asc)
  {
    StrLessTrichotomy(a.bonusType.value, b.bonusType.value);
  }

  /** Equal bonus types with values are ordered largest value first under
      `Asc`, and smallest first under `Desc`. */
  lemma BonusOrderByValue(a: Item, b: Item)
    requires a.bonusType == b.bonusType
    requires a.bonusValue.Some? && b.bonusValue.Some?
    ensures BonusCompare(a, b, Asc) < 0 <==> a.bonusValue.value > b.bonusValue.value
    ensures BonusCompare(a, b, Desc) < 0 <==> a.bonusValue.value < b.bonusValue.value
    ensures BonusCompare(a, b, Asc) == 0 <==> a.bonusValue == b.bonusValue
  {
  }

  /** When both items have a bonus type, or neither has, swapping them
      negates the result. */
  lemma BonusCompareAntisymmetric(a: Item, b: Item, d: Direction)
    requires a.bonusType.Some? == b.bonusType.Some?
    ensures BonusCompare(a, b, d) == -BonusCompare(b, a, d)
  {
    if a.bonusType.Some? && b.bonusType.Some? {
      StrLessTrichotomy(a.bonusType.value, b.bonusType.value);
    }
  }

  /** When exactly one of the two items lacks a bonus type, both orders of
      comparison return `dir`: each item claims to come after the other. */
  lemma BonusCompareMissingType(a: Item, b: Item, d: Direction)
    requires a.bonusType.None? && b.bonusType.Some?
    ensures BonusCompare(a, b, d) == Directed(1, d)
    ensures BonusCompare(b, a, d) == Directed(1, d)
    ensures BonusCompare(a, b, d) != -BonusCompare(b, a, d)
  {
  }

  /* --------------------------------------------------- both rules */

  /** The comparator is antisymmetric on two items unless the bonus column
      is sorted and exactly one of them has a bonus type. */
  lemma CompareAntisymmetric(column: Column, d: Direction, a: Item, b: Item)
    requires column == Bonus ==> a.bonusType.Some? == b.bonusType.Some?
    ensures Compare(column, d, a, b) == -Compare(column, d, b, a)
  {
    if column == Bonus {
      BonusCompareAntisymmetric(a, b, d);
    } else {
      CellCompareAntisymmetric(Cell(a, column), Cell(b, column), d);
    }
  }

  /** On the name and sub-type columns, with both cells present, a row sorts
      before another under `Asc` exactly when both cells are numeric and the
      first number is smaller, or not both are numeric and the first string
      is smaller; under `Desc` the order is reversed. */
  lemma CompareGenericMeaning(column: Column, a: Item, b: Item)
    requires column != Bonus && Cell(a, column).Some? && Cell(b, column).Some?
    ensures var x, y := Cell(a, column).value, Cell(b, column).value;
            var nx, ny := ToNumber(x), ToNumber(y);
            (Compare(column, Asc, a, b) < 0 <==>
               if nx.Some? && ny.Some? then nx.value < ny.value else StrLess(x, y)) &&
            (Compare(column, Desc, a, b) < 0 <==>
               if nx.Some? && ny.Some? then ny.value < nx.value else StrLess(y, x))
  {
    var x, y := Cell(a, column).value, Cell(b, column).value;
    TextCompareMeaning(x, y);
    TextCompareMeaning(y, x);
    TextCompareAntisymmetric(x, y);
  }

  /* ------------------------------------------------ inconsistent cases */

  /** Two digit strings compare by their decimal values. */
  lemma TextCompareDigits(x: string, y: string)
    requires IsDigits(x) && IsDigits(y) && DigitsValue(x) < DigitsValue(y)
    ensures TextCompare(x, y) < 0
  {
  }

  /** A cell holding a character `Number(..)` rejects compares as a string. */
  lemma TextCompareNonNumeric(x: string, y: string, i: int)
    requires 0 <= i < |x| + |y|
    requires if i < |x| then !IsNumberChar(x[i]) else !IsNumberChar(y[i - |x|])
    requires StrLess(x, y)
    ensures TextCompare(x, y) < 0
  {
    if i < |x| {
      assert ToNumber(x).None?;
    } else {
      assert ToNumber(y).None?;
    }
    StrLessTrichotomy(x, y);
  }

  /** `2` before `10`: both are numeric, and 2 < 10. */
  lemma TwoBeforeTen()
    ensures TextCompare("2", "10") < 0
  {
    TextCompareDigits("2", "10");
  }

  /** `10` before `1a`: `1a` is not numeric, and `"10" < "1a"` as strings. */
  lemma TenBeforeOneA()
    ensures TextCompare("10", "1a") < 0
  {
    TextCompareNonNumeric("10", "1a", 3);
  }

  /** `1a` before `2`: `1a` is not numeric, and `"1a" < "2"` as strings. */
  lemma OneABeforeTwo()
    ensures TextCompare("1a", "2") < 0
  {
    TextCompareNonNumeric("1a", "2", 1);
  }

  /** On the name column, two present names compare by the generic rule. */
  lemma CompareNames(a: Item, b: Item)
    requires a.name.Some? && b.name.Some?
    ensures Compare(Name, Asc, a, b) == TextCompare(a.name.value, b.name.value)
  {
  }

  /** The generic rule is not transitive: numbers compare numerically but a
      non-numeric cell compares as a string, so the names `2`, `10` and
      `1a` each sort before the next and `1a` before `2`. */
  lemma GenericRuleCycle(a: Item, b: Item, c: Item)
    requires a.name == Some("2") && b.name == Some("10") && c.name == Some("1a")
    ensures Compare(Name, Asc, a, b) < 0
    ensures Compare(Name, Asc, b, c) < 0
    ensures Compare(Name, Asc, c, a) < 0
  {
    CompareNames(a, b);
    CompareNames(b, c);
    CompareNames(c, a);
    TwoBeforeTen();
    TenBeforeOneA();
    OneABeforeTwo();
  }

  /** Within one bonus type, an item without a bonus value compares 0 with
      items of values 1 and 2, although those two compare unequal, so the
      bonus column is not a consistent order even when every row has a
      bonus type. */
  lemma MissingValueIncomparable(a: Item, b: Item, c: Item, d: Direction)
    requires a.bonusType == b.bonusType == c.bonusType
    requires a.bonusValue.None? && b.bonusValue == Some(1) && c.bonusValue == Some(2)
    ensures Compare(Bonus, d, a, b) == 0 && Compare(Bonus, d, a, c) == 0
    ensures Compare(Bonus, d, b, c) != 0
  {
  }

  /** A missing cell compares 0 with every cell, also with two cells that
      compare unequal to each other, so "compares 0" is not an equivalence. */
  lemma MissingCellIncomparable(a: Item, b: Item, c: Item, d: Direction)
    requires a.name.None? && b.name == Some("a") && c.name == Some("b")
    ensures Compare(Name, d, a, b) == 0 && Compare(Name, d, a, c) == 0
    ensures Compare(Name, Asc, b, c) < 0
  {
    assert !IsNumberChar("a"[0]);
    assert ToNumber("a").None?;
    assert StrLess("a", "b");
  }

}

=== FILE: search.dfy ===
/** The search box: which items of the inventory stay in the table for a
    given search string. */
module Search {
  import opened Text
  import opened Items

  /** An item matches when the lower-cased search text occurs in its
      lower-cased name, or in its lower-cased bonus text. A missing or empty
      name, and a missing bonus type, never match. */
  predicate Matches(item: Item, search: string)
    ensures Matches(item, search) ==> Truthy(item.name) || Truthy(item.bonusType)
    ensures Matches(item, search) ==>
              (Truthy(item.name) && |search| <= |item.name.value|) || |search| <= |BonusString(item)|
  {
    var q := Lower(search);
    || (Truthy(item.name) && Contains(Lower(item.name.value), q))
    || (BonusString(item) != "" && Contains(Lower(BonusString(item)), q))
  }

  /** An item matches exactly when the lower-cased search text occurs at some
      position of its lower-cased name or of its lower-cased bonus text. */
  lemma MatchesIffOccurs(item: Item, search: string)
    ensures Matches(item, search) <==>
              (Truthy(item.name) && exists i :: OccursAt(Lower(item.name.value), Lower(search), i)) ||
              (Truthy(item.bonusType) && exists i :: OccursAt(Lower(BonusString(item)), Lower(search), i))
  {
    ContainsIffOccurs(Lower(BonusString(item)), Lower(search));
    if Truthy(item.name) {
      ContainsIffOccurs(Lower(item.name.value), Lower(search));
    }
  }

  /** `r` is obtained from `s` by deleting elements, keeping the order. */
  predicate IsSubsequence<T(==)>(r: seq<T>, s: seq<T>)
    decreases |s|
  {
    if |r| == 0 then true
    else if |s| == 0 then false
    else (r[0] == s[0] && IsSubsequence(r[1..], s[1..])) || IsSubsequence(r, s[1..])
  }

  /** `inventory.filter(..)` with the search predicate. */
  function Filter(items: seq<Item>, search: string): (r: seq<Item>)
    ensures IsSubsequence(r, items)
    ensures forall x :: multiset(r)[x] == if Matches(x, search) then multiset(items)[x] else 0
    decreases |items|
  {
    if |items| == 0 then []
    else
      assert items == [items[0]] + items[1..];
      if Matches(items[0], search) then [items[0]] + Filter(items[1..], search)
      else Filter(items[1..], search)
  }

  /** Membership in the filtered rows, in both directions. */
  lemma FilterMembers(items: seq<Item>, search: string, x: Item)
    ensures x in Filter(items, search) <==> x in items && Matches(x, search)
  {
    assert x in Filter(items, search) <==> x in multiset(Filter(items, search));
    assert x in items <==> x in multiset(items);
  }

  /** With an empty search an item is dropped exactly when it has neither a
      name nor a bonus type. */
  lemma EmptySearchMatches(item: Item)
    ensures Matches(item, "") <==> Truthy(item.name) || Truthy(item.bonusType)
  {
    assert Lower("") == "";
    if Truthy(item.name) {
      ContainsEmpty(Lower(item.name.value));
    }
    ContainsEmpty(Lower(BonusString(item)));
  }

  /** Typing more: when the new search text contains the old one, every item
      the new search keeps was kept by the old one. */
  lemma NarrowingSearch(item: Item, older: string, newer: string)
    requires Contains(newer, older)
    requires Matches(item, newer)
    ensures Matches(item, older)
  {
    ContainsLower(newer, older);
    if Truthy(item.name) && Contains(Lower(item.name.value), Lower(newer)) {
      ContainsTransitive(Lower(item.name.value), Lower(newer), Lower(older));
    } else {
      ContainsTransitive(Lower(BonusString(item)), Lower(newer), Lower(older));
    }
  }

  /** Filtering the rows of a shorter search by a longer search that
      extends it gives the rows of the longer search. */
  lemma {:induction false} FilterRefines(items: seq<Item>, older: string, newer: string)
    requires Contains(newer, older)
    ensures Filter(Filter(items, older), newer) == Filter(items, newer)
    decreases |items|
  {
    if |items| > 0 {
      FilterRefines(items[1..], older, newer);
      if Matches(items[0], newer) {
        NarrowingSearch(items[0], older, newer);
        assert ([items[0]] + Filter(items[1..], older))[1..] == Filter(items[1..], older);
      } else if Matches(items[0], older) {
        assert ([items[0]] + Filter(items[1..], older))[1..] == Filter(items[1..], older);
      }
    }
  }

  /** Filtering twice with the same search changes nothing. */
  lemma FilterIdempotent(items: seq<Item>, search: string)
    ensures Filter(Filter(items, search), search) == Filter(items, search)
  {
    ContainsSelf(search);
    FilterRefines(items, search, search);
  }

  /** The search ignores the case of what was typed. */
  lemma {:induction false} FilterCaseInsensitive(items: seq<Item>, a: string, b: string)
    requires Lower(a) == Lower(b)
    ensures Filter(items, a) == Filter(items, b)
    decreases |items|
  {
    if |items| > 0 {
      FilterCaseInsensitive(items[1..], a, b);
    }
  }

}

=== FILE: sortheader.dfy ===
/** The sort state of the table and how a click on a column header changes
    it: ascending, then descending, then unsorted again. */
module SortHeader {
  import opened Options

  datatype Direction = Asc | Desc

  /** `sortConfig`: the sorted column, if any, and the direction. */
  datatype SortConfig<K> = SortConfig(key: Option<K>, direction: Direction)

  /** The state the table starts in, and returns to after a third click. */
  function Unsorted<K>(): SortConfig<K> {
    SortConfig(None, Asc)
  }

  /** `handleSort(key)`: the next state after a click on column `key`. */
  function Click<K(==)>(prev: SortConfig<K>, key: K): (next: SortConfig<K>)
    ensures next.key == Some(key) || next == Unsorted()
    ensures next.key.None? <==> prev == SortConfig(Some(key), Desc)
    ensures next.direction == Desc <==> prev == SortConfig(Some(key), Asc)
  {
    if prev.key == Some(key) && prev.direction == Asc then SortConfig(Some(key), Desc)
    else if prev.key == Some(key) && prev.direction == Desc then Unsorted()
    else SortConfig(Some(key), Asc)
  }

  /** A click on a column other than the sorted one restarts at ascending. */
  lemma ClickOtherColumn<K>(prev: SortConfig<K>, key: K)
    requires prev.key != Some(key)
    ensures Click(prev, key) == SortConfig(Some(key), Asc)
  {
  }

  /** The state after `n` clicks on the same column. */
  function ClickTimes<K(==)>(s: SortConfig<K>, key: K, n: nat): SortConfig<K>
    decreases n
  {
    if n == 0 then s else Click(ClickTimes(s, key, n - 1), key)
  }

  /** From the unsorted state, clicks on one column cycle through
      ascending, descending and unsorted with period three. */
  lemma {:induction false} ClickCycle<K>(key: K, n: nat)
    ensures ClickTimes(Unsorted(), key, n) ==
              if n % 3 == 0 then Unsorted()
              else if n % 3 == 1 then SortConfig(Some(key), Asc)
              else SortConfig(Some(key), Desc)
    decreases n
  {
    if n > 0 {
      ClickCycle(key, n - 1);
      var m := (n - 1) % 3;
      assert n % 3 == if m == 2 then 0 else m + 1;
    }
  }

  /** The state after clicking the given headers in order. */
  function ClickAll<K(==)>(s: SortConfig<K>, keys: seq<K>): SortConfig<K>
    decreases |keys|
  {
    if |keys| == 0 then s else ClickAll(Click(s, keys[0]), keys[1..])
  }

  /** In every state a user can reach, an unsorted table shows the ascending
      direction, and the sorted column is the last one clicked. */
  lemma {:induction false} ClickAllReachable<K>(s: SortConfig<K>, keys: seq<K>)
    requires s.key.None? ==> s.direction == Asc
    ensures var t := ClickAll(s, keys);
            (t.key.None? ==> t.direction == Asc) &&
            (|keys| > 0 && t.key.Some? ==> t.key.value == keys[|keys| - 1])
    decreases |keys|
  {
    if |keys| > 0 {
      ClickAllReachable(Click(s, keys[0]), keys[1..]);
      if |keys| > 1 {
        assert keys[1..][|keys[1..]| - 1] == keys[|keys| - 1];
      }
    }
  }

  const UpMarker := " \U{25B2}"
  const DownMarker := " \U{25BC}"

  /** The arrow drawn after a header label: `▲` on the ascending column,
      `▼` on the descending one, nothing elsewhere. */
  function Indicator<K(==)>(config: SortConfig<K>, column: K): (r: string)
    ensures r != "" <==> config.key == Some(column)
    ensures r == UpMarker <==> config.key == Some(column) && config.direction == Asc
    ensures r == DownMarker <==> config.key == Some(column) && config.direction == Desc
  {
    assert UpMarker[1] != DownMarker[1];
    if config.key == Some(column) then
      match config.direction
      case Asc => UpMarker
      case Desc => DownMarker
    else ""
  }

}

=== FILE: table.dfy ===
/** The rows the table displays: the filtered inventory, sorted by the
    comparator of the sorted column when there is one. */
module Table {
  import opened Options
  import opened Items
  import opened Search
  import opened SortHeader
  import opened RowOrder

  /* ------------------------------------------------------------ sorting */

  /** Inserts `x` into `s` before the first row that compares greater than
      it, so that rows comparing equal keep their order. */
  function Insert(column: Column, d: Direction, x: Item, s: seq<Item>): (r: seq<Item>)
    ensures multiset(r) == multiset(s) + multiset{x}
    ensures |r| > 0 && (r[0] == x || (|s| > 0 && r[0] == s[0]))
    decreases |s|
  {
    if |s| == 0 then [x]
    else if Compare(column, d, s[0], x) > 0 then [x] + s
    else
      assert s == [s[0]] + s[1..];
      [s[0]] + Insert(column, d, x, s[1..])
  }

  /** `Array.prototype.sort` with the comparator of `column`, as a stable
      insertion sort. */
  function SortRows(column: Column, d: Direction, s: seq<Item>): (r: seq<Item>)
    ensures multiset(r) == multiset(s)
    decreases |s|
  {
    if |s| == 0 then []
    else
      assert s == s[..|s| - 1] + [s[|s| - 1]];
      Insert(column, d, s[|s| - 1], SortRows(column, d, s[..|s| - 1]))
  }

  /** Each row compares at most 0 with the row below it. */
  ghost predicate Ordered(column: Column, d: Direction, s: seq<Item>) {
    forall i :: 0 <= i < |s| - 1 ==> Compare(column, d, s[i], s[i + 1]) <= 0
  }

  /** Swapping any two rows of `s` negates their comparison. */
  ghost predicate AntisymmetricOn(column: Column, d: Direction, s: seq<Item>) {
    forall a, b :: a in s && b in s ==> Compare(column, d, a, b) == -Compare(column, d, b, a)
  }

  lemma {:induction false} InsertOrdered(column: Column, d: Direction, x: Item, s: seq<Item>)
    requires Ordered(column, d, s)
    requires forall y :: y in s ==> Compare(column, d, x, y) == -Compare(column, d, y, x)
    ensures Ordered(column, d, Insert(column, d, x, s))
    decreases |s|
  {
    if |s| > 0 && Compare(column, d, s[0], x) <= 0 {
      assert s[0] in s;
      InsertOrdered(column, d, x, s[1..]);
    }
  }

  /** The sorted rows are ordered whenever the comparator is antisymmetric on
      them. */
  lemma {:induction false} SortRowsOrdered(column: Column, d: Direction, s: seq<Item>)
    requires AntisymmetricOn(column, d, s)
    ensures Ordered(column, d, SortRows(column, d, s))
    decreases |s|
  {
    if |s| > 0 {
      var init := s[..|s| - 1];
      var x := s[|s| - 1];
      assert s == init + [x];
      SortRowsOrdered(column, d, init);
      var sorted := SortRows(column, d, init);
      forall y | y in sorted
        ensures Compare(column, d, x, y) == -Compare(column, d, y, x)
      {
        assert y in multiset(sorted);
        assert y in init;
      }
      InsertOrdered(column, d, x, sorted);
    }
  }

  /* ------------------------------------------------------ displayed rows */

  /** The rows of the table for an inventory, a search text and a sort
      state. */
  function Displayed(items: seq<Item>, search: string, config: SortConfig<Column>): (rows: seq<Item>)
    ensures config.key.None? ==> rows == Filter(items, search)
    ensures multiset(rows) == multiset(Filter(items, search))
    ensures forall x :: multiset(rows)[x] == if Matches(x, search) then multiset(items)[x] else 0
  {
    var filtered := Filter(items, search);
    if config.key.None? then filtered
    else SortRows(config.key.value, config.direction, filtered)
  }

  /** A row is displayed exactly when it is in the inventory and matches the
      search, whatever the sort state. */
  lemma DisplayedMembers(items: seq<Item>, search: string, config: SortConfig<Column>, x: Item)
    ensures x in Displayed(items, search, config) <==> x in items && Matches(x, search)
  {
    var rows := Displayed(items, search, config);
    assert x in rows <==> x in multiset(rows);
    assert x in items <==> x in multiset(items);
  }

  /** Sorting by name or sub-type always yields ordered rows; sorting by
      bonus does when all matching rows have a bonus type, or none has. */
  lemma DisplayedOrdered(items: seq<Item>, search: string, column: Column, d: Direction)
    requires column == Bonus ==>
               (forall x :: x in items && Matches(x, search) ==> x.bonusType.Some?) ||
               (forall x :: x in items && Matches(x, search) ==> x.bonusType.None?)
    ensures Ordered(column, d, Displayed(items, search, SortConfig(Some(column), d)))
  {
    var filtered := Filter(items, search);
    forall a, b | a in filtered && b in filtered
      ensures Compare(column, d, a, b) == -Compare(column, d, b, a)
    {
      FilterMembers(items, search, a);
      FilterMembers(items, search, b);
      CompareAntisymmetric(column, d, a, b);
    }
    SortRowsOrdered(column, d, filtered);
  }

}

=== FILE: text.dfy ===
/** The JavaScript string operations the inventory table relies on:
    `toLowerCase`, `includes`, the `<` comparison of two strings, and the
    whitespace class `\s` used by the regular expressions `^\s+`. */
module Text {

  /* ---------------------------------------------------------------- case */

  predicate IsUpper(c: char) {
    'A' <= c <= 'Z'
  }

  /** `toLowerCase` on one character (the ASCII letters only). */
  function LowerChar(c: char): char {
    if IsUpper(c) then (c as int + 32) as char else c
  }

  /** `s.toLowerCase()`, character by character. */
  function Lower(s: string): (r: string)
    ensures |r| == |s|
    ensures forall i :: 0 <= i < |s| ==> r[i] == LowerChar(s[i])
  {
    seq(|s|, i requires 0 <= i < |s| => LowerChar(s[i]))
  }

  /** No character of a lower-cased string is upper case, and lower-casing
      it again changes nothing. */
  lemma LowerIsLowerCase(s: string)
    ensures forall i :: 0 <= i < |s| ==> !IsUpper(Lower(s)[i])
    ensures Lower(Lower(s)) == Lower(s)
  {
  }

  /* ----------------------------------------------------------- substrings */

  predicate StartsWith(s: string, p: string) {
    |p| <= |s| && s[..|p|] == p
  }

  /** `n` occurs in `h` starting at index `i`. */
  predicate OccursAt(h: string, n: string, i: int) {
    0 <= i && i + |n| <= |h| && h[i..i + |n|] == n
  }

  /** `h.includes(n)`: the search that tries every start position in turn. */
  predicate Contains(h: string, n: string)
    ensures Contains(h, n) ==> |n| <= |h|
    ensures |n| == 0 ==> Contains(h, n)
    decreases |h|
  {
    StartsWith(h, n) || (|h| > 0 && Contains(h[1..], n))
  }

  /** `Contains` agrees with the positional definition of a substring, in
      both directions. */
  lemma {:induction false} ContainsIffOccurs(h: string, n: string)
    ensures Contains(h, n) <==> exists i :: OccursAt(h, n, i)
    decreases |h|
  {
    if Contains(h, n) {
      if StartsWith(h, n) {
        assert OccursAt(h, n, 0);
      } else {
        ContainsIffOccurs(h[1..], n);
        var i :| OccursAt(h[1..], n, i);
        assert h[1..][i..i + |n|] == h[i + 1..i + 1 + |n|];
        assert OccursAt(h, n, i + 1);
      }
    }
    if exists i :: OccursAt(h, n, i) {
      var i :| OccursAt(h, n, i);
      if i == 0 {
        assert StartsWith(h, n);
      } else {
        assert h[1..][i - 1..i - 1 + |n|] == h[i..i + |n|];
        assert OccursAt(h[1..], n, i - 1);
        ContainsIffOccurs(h[1..], n);
      }
    }
  }

  /** Every string contains the empty string. */
  lemma ContainsEmpty(h: string)
    ensures Contains(h, "")
  {
    assert StartsWith(h, "");
  }

  /** Every string contains itself. */
  lemma ContainsSelf(h: string)
    ensures Contains(h, h)
  {
    assert StartsWith(h, h);
  }

  /** Being a substring is transitive. */
  lemma ContainsTransitive(h: string, m: string, n: string)
    requires Contains(h, m) && Contains(m, n)
    ensures Contains(h, n)
  {
    ContainsIffOccurs(h, m);
    ContainsIffOccurs(m, n);
    var i :| OccursAt(h, m, i);
    var j :| OccursAt(m, n, j);
    assert h[i + j..i + j + |n|] == n by {
      forall k | 0 <= k < |n|
        ensures h[i + j..i + j + |n|][k] == n[k]
      {
        assert h[i..i + |m|][j + k] == m[j + k];
        assert m[j..j + |n|][k] == n[k];
      }
    }
    assert OccursAt(h, n, i + j);
    ContainsIffOccurs(h, n);
  }

  /** Lower-casing both sides keeps a substring a substring. */
  lemma ContainsLower(h: string, n: string)
    requires Contains(h, n)
    ensures Contains(Lower(h), Lower(n))
  {
    ContainsIffOccurs(h, n);
    var i :| OccursAt(h, n, i);
    assert Lower(h)[i..i + |n|] == Lower(n) by {
      forall k | 0 <= k < |n|
        ensures Lower(h)[i..i + |n|][k] == Lower(n)[k]
      {
        assert h[i..i + |n|][k] == n[k];
      }
    }
    assert OccursAt(Lower(h), Lower(n), i);
    ContainsIffOccurs(Lower(h), Lower(n));
  }

  /* ------------------------------------------------------ string ordering */

  /** `a < b` on two JavaScript strings: lexicographic, a proper prefix
      being smaller. */
  predicate StrLess(a: string, b: string)
    decreases |a|
  {
    if |a| == 0 then |b| > 0
    else if |b| == 0 then false
    else if a[0] != b[0] then a[0] < b[0]
    else StrLess(a[1..], b[1..])
  }

  /** `StrLess` is irreflexive and asymmetric, and any two distinct strings
      are related one way or the other. */
  lemma {:induction false} StrLessTrichotomy(a: string, b: string)
    ensures !StrLess(a, a)
    ensures StrLess(a, b) ==> !StrLess(b, a)
    ensures a != b ==> StrLess(a, b) || StrLess(b, a)
    decreases |a|
  {
    if |a| > 0 {
      StrLessTrichotomy(a[1..], a[1..]);
    }
    if |a| > 0 && |b| > 0 {
      StrLessTrichotomy(a[1..], b[1..]);
      if a[0] == b[0] && a != b {
        assert a == [a[0]] + a[1..] && b == [b[0]] + b[1..];
      }
    }
  }

  /** `StrLess` is transitive, which with `StrLessTrichotomy` makes it a
      strict total order. */
  lemma {:induction false} StrLessTransitive(a: string, b: string, c: string)
    requires StrLess(a, b) && StrLess(b, c)
    ensures StrLess(a, c)
    decreases |a|
  {
    if |a| > 0 && a[0] == b[0] && b[0] == c[0] {
      StrLessTransitive(a[1..], b[1..], c[1..]);
    }
  }

  /* ----------------------------------------------------------- whitespace */

  /** The characters matched by `\s` in a JavaScript regular expression, which
      are also the ones `Number(..)` trims: the ECMAScript WhiteSpace and
      LineTerminator code points. */
  predicate IsSpace(c: char) {
    || c == '\t' || c == '\n' || c == '\U{B}' || c == '\U{C}' || c == '\r'
    || c == ' ' || c == '\U{A0}' || c == '\U{1680}'
    || ('\U{2000}' <= c <= '\U{200A}')
    || c == '\U{2028}' || c == '\U{2029}' || c == '\U{202F}' || c == '\U{205F}'
    || c == '\U{3000}' || c == '\U{FEFF}'
  }

  /** `s.replace(/^\s+/, '')`: drops the longest run of leading whitespace. */
  function TrimStart(s: string): (r: string)
    ensures |r| <= |s| && r == s[|s| - |r|..]
    ensures forall i :: 0 <= i < |s| - |r| ==> IsSpace(s[i])
    ensures |r| == 0 || !IsSpace(r[0])
    decreases |s|
  {
    if |s| > 0 && IsSpace(s[0]) then TrimStart(s[1..]) else s
  }

  /** Drops the longest run of trailing whitespace. */
  function TrimEnd(s: string): (r: string)
    ensures |r| <= |s| && r == s[..|r|]
    ensures forall i :: |r| <= i < |s| ==> IsSpace(s[i])
    ensures |r| == 0 || !IsSpace(r[|r| - 1])
    decreases |s|
  {
    if |s| > 0 && IsSpace(s[|s| - 1]) then TrimEnd(s[..|s| - 1]) else s
  }

  /** Leading whitespace followed by text that does not start with
      whitespace trims to that text. */
  lemma {:induction false} TrimStartSkipsSpaces(w: string, rest: string)
    requires forall i :: 0 <= i < |w| ==> IsSpace(w[i])
    requires |rest| == 0 || !IsSpace(rest[0])
    ensures TrimStart(w + rest) == rest
    decreases |w|
  {
    if |w| > 0 {
      assert (w + rest)[1..] == w[1..] + rest;
      TrimStartSkipsSpaces(w[1..], rest);
    } else {
      assert w + rest == rest;
    }
  }

  /** Text that does not end in whitespace, followed by whitespace, trims at
      the end to that text. */
  lemma {:induction false} TrimEndSkipsSpaces(rest: string, w: string)
    requires forall i :: 0 <= i < |w| ==> IsSpace(w[i])
    requires |rest| == 0 || !IsSpace(rest[|rest| - 1])
    ensures TrimEnd(rest + w) == rest
    decreases |w|
  {
    if |w| > 0 {
      assert (rest + w)[..|rest + w| - 1] == rest + w[..|w| - 1];
      TrimEndSkipsSpaces(rest, w[..|w| - 1]);
    } else {
      assert rest + w == rest;
    }
  }

  /** Drops leading and trailing whitespace, as `Number(..)` does first. */
  function Trim(s: string): string {
    TrimEnd(TrimStart(s))
  }

  /** A string that neither starts nor ends with whitespace is its own trim. */
  lemma TrimUntrimmed(s: string)
    requires |s| > 0 && !IsSpace(s[0]) && !IsSpace(s[|s| - 1])
    ensures Trim(s) == s
  {
    assert TrimStart(s) == s;
  }

  /** A string of whitespace only trims to the empty string. */
  lemma TrimAllSpaces(s: string)
    requires forall i :: 0 <= i < |s| ==> IsSpace(s[i])
    ensures Trim(s) == ""
  {
  }

  /** Trimming keeps every character that is not whitespace, at its index
      less the length of the leading whitespace. */
  lemma TrimKeeps(s: string, i: int)
    requires 0 <= i < |s| && !IsSpace(s[i])
    ensures var j := i - (|s| - |TrimStart(s)|);
            0 <= j < |Trim(s)| && Trim(s)[j] == s[i]
  {
    var t := TrimStart(s);
    var d := |s| - |t|;
    assert i >= d;
    assert t[i - d] == s[i];
    var u := TrimEnd(t);
    assert i - d < |u|;
    assert u[i - d] == t[i - d];
  }

  /** `s.replace(/^p/, '')` for a pattern `p` free of regular-expression
      metacharacters: removes one leading occurrence of `p`, if any. */
  function StripPrefix(s: string, p: string): (r: string)
    ensures StartsWith(s, p) ==> s == p + r
    ensures !StartsWith(s, p) ==> r == s
  {
    if StartsWith(s, p) then s[|p|..] else s
  }

}
